=== FILE: README.md ===
# DUO138: SQLAlchemy methods called out of order

This project models dlint's DUO138 rule in Dafny. The rule is a purely syntactic
check on SQLAlchemy query chains, and it exists in two revisions, each modelled
as its own module.

- `OrderRevision` (dlint/linters/bad_sqlalchemy_order.py) reports two things.
  First, a `filter`/`filter_by` when at least one of `limit`/`offset` occurs
  and the filter's first index comes after the LARGER of their first indices,
  unless `from_self` lies strictly between them. Second, an `update`/`delete`
  when some "poison" call (`limit`, `offset`, `order_by`, `group_by`,
  `distinct`, `join`, `outerjoin`, `select_from`, `from_self`) occurs and the
  update/delete first appears after every one that occurs.
- `FilterRevision` (dlint/linters/bad_sqlalchemy_filter.py) has only the
  filter rule. It takes the SMALLER of the two first indices and does not check
  that the result is `>= 0`.

The node's chain is the list of its step names, e.g. `["User", "query",
"limit", "filter_by"]` for `User.query.limit(10).filter_by(id=1)`
(tests/test_tree.py:28-35). The model takes this list as a parameter. Every
lookup is by name through `_index`, which returns the FIRST occurrence or -1.
A repeated name is therefore always judged by its first occurrence, as in the
source.

Files:
- `pylist.dfy` (`PyList`) holds Python's `list.index`, `max` and `min`.
  `list.index` is modelled with its ValueError as `None`.
- `lint.dfy` (`Lint`) holds the visited attribute node, the `Flake8Result`
  record, and the "one result appended" relation.
- `order.dfy` and `filter.dfy` hold the two revisions. In each, the rule is a
  predicate over `(attribute name, chain)`, and a reference reading of it is
  written without `max`/`min`. The predicate's contract states that the two
  are equivalent. `Visit` is a function from the results so far to the
  results after the visit.
- `scenarios.dfy` (`Scenarios`) states the outcome of both revisions, one
  visit at a time, on the chains of tests/test_bad_sqlalchemy_filter.py. It
  also states where the revisions disagree.

The filter revision takes the minimum of both `_index` values, -1 included,
and does not check that either name is present
(dlint/linters/bad_sqlalchemy_filter.py:40-41). The model does the same.

The source's name sets are modelled as duplicate-free `seq<string>` constants.
Membership is the same either way. The `Max`/`Min` contracts do not depend on
order, so the iteration order of a Python set cannot change a result.

## Model

| member | source | states |
|---|---|---|
| PyList.ListIndex | dlint/linters/bad_sqlalchemy_order.py:17-20 | `list.index` fails exactly when the item is absent; otherwise it gives the position of the item's first occurrence |
| PyList.ListIndexFirst | dlint/linters/bad_sqlalchemy_order.py:17-20 | conversely, when `k` is the first position of the item, `list.index` returns `k` |
| PyList.Max | dlint/linters/bad_sqlalchemy_order.py:58 | `max` of a non-empty list returns one of its members, and no member is larger |
| PyList.Min | dlint/linters/bad_sqlalchemy_filter.py:40 | `min` of a non-empty list returns one of its members, and no member is smaller |
| OrderRevision.Index | dlint/linters/bad_sqlalchemy_order.py:16-20 | `_index` is -1 exactly when the item is absent; otherwise it is the position of the first occurrence |
| OrderRevision.IndexAt | dlint/linters/bad_sqlalchemy_order.py:16-20 | whenever `k` is the first position of a name, `_index` gives `k` |
| OrderRevision.MaxIndexBelow | dlint/linters/bad_sqlalchemy_order.py:58-59 | the max of the names' first indices is below a bound exactly when every name's index is below it, absent names counting as -1 |
| OrderRevision.MaxIndexPresent | dlint/linters/bad_sqlalchemy_order.py:69-71 | the max of the names' first indices is `>= 0` exactly when one of the names occurs |
| OrderRevision.FilterAfterLimit | dlint/linters/bad_sqlalchemy_order.py:54-63 | the filter rule holds exactly when: the node is `filter`/`filter_by`; some `limit`/`offset` occurs; every occurring one first appears before the filter; and `from_self` does not first appear after all of them and before the filter |
| OrderRevision.BadUpdateOrDelete | dlint/linters/bad_sqlalchemy_order.py:66-75 | the update/delete rule holds exactly when the node is `update`/`delete`, some poison call occurs, and every occurring poison call first appears before it |
| OrderRevision.Visit | dlint/linters/bad_sqlalchemy_order.py:78-92 | earlier results are kept, and at most one `(lineno, col_offset, _error_tmpl)` result is appended; a result is appended exactly when one of the two rules' reference readings holds; names outside both trigger sets append nothing |
| OrderRevision.NoLimitNoFilterHit | dlint/linters/bad_sqlalchemy_order.py:58-59 | with neither `limit` nor `offset` in the chain, the filter rule never fires |
| OrderRevision.FilterBeforeLimitNoHit | dlint/linters/bad_sqlalchemy_order.py:59 | a filter that first appears before some occurring `limit`/`offset` is not reported, even when `from_self` follows |
| OrderRevision.FromSelfBetweenNoHit | dlint/linters/bad_sqlalchemy_order.py:60-61 | a `from_self` after every occurring `limit`/`offset` and before the filter suppresses the report |
| OrderRevision.PoisonBeforeUpdateHit | dlint/linters/bad_sqlalchemy_order.py:69-74 | an update/delete is reported when some poison call occurs and all of them first appear before it; `from_self` counts as poison |
| OrderRevision.NoPoisonNoUpdateHit | dlint/linters/bad_sqlalchemy_order.py:69-71 | with no poison call in the chain, an update/delete is never reported |
| OrderRevision.RulesExclusive | dlint/linters/bad_sqlalchemy_order.py:78-83 | the two trigger sets are disjoint, so the two rules never both hold for one node |
| FilterRevision.Index | dlint/linters/bad_sqlalchemy_filter.py:16-17 | `_index` is -1 exactly when the item is absent; otherwise it is the position of the first occurrence |
| FilterRevision.IndexAt | dlint/linters/bad_sqlalchemy_filter.py:16-17 | whenever `k` is the first position of a name, `_index` gives `k` |
| FilterRevision.MinIndexPresent | dlint/linters/bad_sqlalchemy_filter.py:40 | the min of the names' first indices is `>= 0` exactly when EVERY name occurs |
| FilterRevision.MinIndexBelow | dlint/linters/bad_sqlalchemy_filter.py:40-41 | the min of the names' first indices is below a bound exactly when some name's index is, absent names counting as -1 |
| FilterRevision.Fires | dlint/linters/bad_sqlalchemy_filter.py:36-43 | a result is due exactly when the node is a filter occurring in the chain and then (a) with both `limit` and `offset` present, one of them first appears before the filter and no `from_self` lies between the earlier of them and the filter, or (b) otherwise, `from_self` does not first appear before the filter |
| FilterRevision.Visit | dlint/linters/bad_sqlalchemy_filter.py:36-50 | earlier results are kept, and at most one `(lineno, col_offset, _error_tmpl)` result is appended, exactly when the reference reading holds; names other than `filter`/`filter_by` append nothing |
| FilterRevision.LimitIndexNeedsBoth | dlint/linters/bad_sqlalchemy_filter.py:40 | `limit_index` is at least -1, and it is `>= 0` only when both `limit` and `offset` occur |
| FilterRevision.MissingLimitFires | dlint/linters/bad_sqlalchemy_filter.py:40-43 | with `limit` or `offset` missing, an occurring filter is reported exactly when `from_self` does not first appear before it (no `>= 0` guard) |
| FilterRevision.BothLimitsAfterFilterNoHit | dlint/linters/bad_sqlalchemy_filter.py:40-41 | with both `limit` and `offset` present and both after the filter, nothing is reported |
| FilterRevision.FromSelfBetweenNoHit | dlint/linters/bad_sqlalchemy_filter.py:42-43 | a `from_self` that first appears before the filter and after some `limit`/`offset` suppresses the report; an absent limiting name counts as -1, so with either one missing any earlier `from_self` suppresses it |
| Scenarios.RevisionsDisagreeWithoutLimit | dlint/linters/bad_sqlalchemy_filter.py:40-43 | on a chain with no `limit`, `offset` or `from_self`, the filter revision reports every occurring filter node and the order revision reports none |
| Scenarios.UnlimitedFilterReported | tests/test_bad_sqlalchemy_filter.py:36-44 | for `User.query.filter_by(id=id).first()`, the filter revision reports the `filter_by` node and the order revision does not; neither reports the outermost `first` node |
| Scenarios.UnlimitedFilterPrefixReported | tests/test_bad_sqlalchemy_filter.py:36-44 | the filter revision also reports that `filter_by` node when its chain is cut at the node |
| Scenarios.FilterAfterLimitReported | tests/test_bad_sqlalchemy_filter.py:15-22 | `User.query.limit(10).filter_by(id=1)` gives one result at the filter in both revisions |
| Scenarios.FilterAfterOffsetReported | tests/test_bad_sqlalchemy_filter.py:25-32 | `User.query.offset(10).filter_by(id=1)` gives one result at the filter in both revisions |
| Scenarios.FilterThenLimitScenario | tests/test_bad_sqlalchemy_filter.py:47-55 | `filter_by(...).limit(10)` gives nothing at either node in the order revision; the filter revision gives nothing at `limit` but reports the inner `filter_by` |
| Scenarios.FilterThenOffsetScenario | tests/test_bad_sqlalchemy_filter.py:58-66 | `filter_by(...).offset(5)` gives nothing at either node in the order revision; the filter revision gives nothing at `offset` but reports the inner `filter_by` |
| Scenarios.FromSelfAfterLimitNotReported | tests/test_bad_sqlalchemy_filter.py:69-77 | `limit(10).from_self().filter_by(id=1)` gives nothing in both revisions |
| Scenarios.FromSelfAfterOffsetNotReported | tests/test_bad_sqlalchemy_filter.py:80-88 | `offset(10).from_self().filter_by(id=1)` gives nothing in both revisions |
| Scenarios.FromSelfAtEndScenario | tests/test_bad_sqlalchemy_filter.py:91-99 | `filter_by(id=1).limit(10).from_self()` gives nothing at either node in the order revision; the filter revision gives nothing at the outermost `from_self` but reports the inner `filter_by` node (no `offset`, and `from_self` comes after the filter) |
| Scenarios.PoisonThenUpdateReported | tests/test_bad_sqlalchemy_filter.py:102-123 | for each of the nine poison calls followed by `update()` or `delete()`, the order revision gives exactly one result at the terminal call |
| Scenarios.FilterThenUpdateNotReported | tests/test_bad_sqlalchemy_filter.py:125-135 | `filter_by(id=1).update()` and `.delete()` give nothing in the order revision |

## Left out

- `tree.module_path` (dlint/tree.py) is not part of this model. The chain of step names is a parameter of each visit. This model leaves open whether the chain is the prefix up to the node or the whole chain; no test outcome depends on which.
- `base.BaseLinter`, `get_results` and the construction of `base.Flake8Result` are not part of this model. Results are a plain sequence of `Flake8Result` records, and `_code` is a constant.
- Parsing (`ast.parse`) and traversal (NodeVisitor's name-based dispatch and its recursion into child nodes) are left out. Each `Visit` is one call of `visit_Attribute`. Neither revision calls `generic_visit`, so a plain `ast.NodeVisitor` visits only the outermost attribute of each chain. Since the base linter's traversal is not modelled here, the scenarios state the outermost visit and, where the revisions differ, the inner filter visit as well.
- `tree.decorator_name` and its test are unrelated to this rule and are left out.
- `_long_error_tmpl` is never used by the rule and is left out. The f-string `_error_tmpl` is written out as a constant.
- Which of the two same-named `BadSqlalchemyFilter` classes `dlint.linters` exports depends on a file that is not part of this model. Both are modelled.
- The duplicate test `test_filter_by` (tests/test_bad_sqlalchemy_filter.py:137-145) repeats the chain of `test_filter_no_limits`, which is covered by `Scenarios.UnlimitedFilterReported`.

## Findings

| source | as written | input that shows it | evidently intended | confidence | as-written member | corrected member |
|---|---|---|---|---|---|---|
| dlint/linters/bad_sqlalchemy_filter.py:40-43 | `limit_index` is the min of the two `_index` values, and nothing checks that it is `>= 0`. A missing `limit` or `offset` therefore makes it -1, which counts as "before the filter". | visiting `filter_by` in `User.query.filter_by(id=id).first()`, chain `["User", "query", "filter_by", "first"]` | no result unless a limiting call precedes the filter (tests/test_bad_sqlalchemy_filter.py:36-44 expects none; the later revision guards with `limit_index >= 0` at bad_sqlalchemy_order.py:59) | high for a visit of the `filter_by` node; whether the test sees it depends on the base linter's traversal, which this model leaves out; not executed | Scenarios.UnlimitedFilterReported | OrderRevision.NoLimitNoFilterHit |

=== FILE: filter.dfy ===
/** The earlier revision of the DUO138 rule (bad_sqlalchemy_filter.py): only
    the filter rule, taking the EARLIER of the first indices of `limit` and
    `offset` and with no check that either occurs. Since `_index` gives -1 for
    an absent name, the limit index is -1 unless both names occur, and a filter
    with no limiting call at all is then reported. */
module FilterRevision {
  import opened PyList
  import opened Lint

  const Code: string := "DUO138"
  const ErrorTmpl: string :=
    Code + " applying filter() after limit() or offset() without a from_self() in between will raise a runtime error."

  // The source's name sets, listed without duplicates.
  const FilterMethods: seq<string> := ["filter", "filter_by"]
  const LimitMethods: seq<string> := ["limit", "offset"]
  const FromSelf: string := "from_self"

  /** `_index`: position of the first occurrence of `item`, -1 when absent
      (a membership test guards `list.index`). */
  function Index(s: seq<string>, item: string): (r: int)
    ensures -1 <= r < |s|
    ensures r == -1 <==> item !in s
    ensures r >= 0 ==> IsFirstIndex(s, item, r)
  {
    if item in s then ListIndex(s, item).value else -1
  }

  /** `_index` finds the first occurrence of a name in the chain. */
  lemma IndexAt(s: seq<string>, item: string, k: int)
    requires IsFirstIndex(s, item, k)
    ensures Index(s, item) == k
  {
    ListIndexFirst(s, item, k);
  }

  /** The list comprehension `[_index(s, m) for m in names]`. */
  function IndicesOf(s: seq<string>, names: seq<string>): seq<int> {
    seq(|names|, i requires 0 <= i < |names| => Index(s, names[i]))
  }

  /** The smallest first index among `names` is a real position exactly when
      EVERY name occurs in the chain. */
  lemma MinIndexPresent(s: seq<string>, names: seq<string>)
    requires |names| > 0
    ensures Min(IndicesOf(s, names)) >= 0 <==> forall m :: m in names ==> m in s
  {
    var xs := IndicesOf(s, names);
    if Min(xs) >= 0 {
      forall m | m in names ensures m in s {
        var i :| 0 <= i < |names| && names[i] == m;
        assert xs[i] == Index(s, m);
      }
    } else {
      var i :| 0 <= i < |xs| && xs[i] == Min(xs);
      assert names[i] in names && names[i] !in s;
    }
  }

  /** The smallest first index among `names` lies below `b` exactly when some
      name's first index does (absent names counting as -1). */
  lemma MinIndexBelow(s: seq<string>, names: seq<string>, b: int)
    requires |names| > 0
    ensures Min(IndicesOf(s, names)) < b <==> exists m :: m in names && Index(s, m) < b
  {
    var xs := IndicesOf(s, names);
    if Min(xs) < b {
      var i :| 0 <= i < |xs| && xs[i] == Min(xs);
      assert names[i] in names && Index(s, names[i]) < b;
    } else {
      forall m | m in names ensures Index(s, m) >= b {
        var i :| 0 <= i < |names| && names[i] == m;
        assert xs[i] == Index(s, m);
      }
    }
  }

  /** Reference reading of this revision, without `min`. The node is a filter
      that occurs in the chain, and then:
      - when both `limit` and `offset` occur, one of them first appears before
        the filter, and `from_self` does not lie between the earlier of them
        and the filter;
      - otherwise, `from_self` does not first appear before the filter. */
  predicate FiresSpec(attr: string, s: seq<string>) {
    && attr in FilterMethods
    && attr in s
    && if forall m :: m in LimitMethods ==> m in s then
         && (exists m :: m in LimitMethods && Index(s, m) < Index(s, attr))
         && !(&& (exists m :: m in LimitMethods && Index(s, m) < Index(s, FromSelf))
              && Index(s, FromSelf) < Index(s, attr))
       else
         !(FromSelf in s && Index(s, FromSelf) < Index(s, attr))
  }

  /** The report condition of `visit_Attribute`, reading only the node's
      attribute name and its chain. It holds exactly when the reference
      reading does. */
  predicate Fires(attr: string, s: seq<string>): (r: bool)
    ensures r <==> FiresSpec(attr, s)
  {
    if attr in FilterMethods then
      var filterIndex := Index(s, attr);
      var limitIndex := Min(IndicesOf(s, LimitMethods));
      if limitIndex < filterIndex then
        var fromSelfIndex := Index(s, FromSelf);
        !(limitIndex < fromSelfIndex && fromSelfIndex < filterIndex)
      else false
    else false
  }

  /** `visit_Attribute`: at most one result is appended, at the node's
      position; a node that is not a filter leaves the results alone. */
  function Visit(results: seq<Flake8Result>, node: Attribute, path: seq<string>)
    : (r: seq<Flake8Result>)
    ensures r == results || AppendsOne(results, r, node, ErrorTmpl)
    ensures r != results <==> FiresSpec(node.attr, path)
    ensures node.attr !in FilterMethods ==> r == results
  {
    if Fires(node.attr, path) then
      results + [Flake8Result(node.lineno, node.colOffset, ErrorTmpl)]
    else results
  }

  /** The limit index is a real position only when BOTH `limit` and `offset`
      occur; a single limiting call leaves it at -1. */
  lemma LimitIndexNeedsBoth(s: seq<string>)
    ensures Min(IndicesOf(s, LimitMethods)) >= 0 <==> "limit" in s && "offset" in s
    ensures Min(IndicesOf(s, LimitMethods)) >= -1
  {
    MinIndexPresent(s, LimitMethods);
  }

  /** With `limit` or `offset` missing, a filter that occurs in the chain is
      reported unless `from_self` first appears before it: in particular a plain
      `filter_by(...)` chain with no limiting call is reported. */
  lemma MissingLimitFires(attr: string, s: seq<string>)
    requires attr in FilterMethods && attr in s
    requires "limit" !in s || "offset" !in s
    ensures Fires(attr, s) <==> !(FromSelf in s && Index(s, FromSelf) < Index(s, attr))
  {
  }

  /** When both `limit` and `offset` occur and both come after the filter,
      nothing is reported. */
  lemma BothLimitsAfterFilterNoHit(attr: string, s: seq<string>)
    requires "limit" in s && "offset" in s
    requires Index(s, attr) < Index(s, "limit") && Index(s, attr) < Index(s, "offset")
    ensures !Fires(attr, s)
  {
    LimitIndexNeedsBoth(s);
    MinIndexBelow(s, LimitMethods, Index(s, attr));
  }

  /** A `from_self` that first appears before the filter and after some
      limiting call suppresses the report. An absent `limit` or `offset`
      counts as index -1, so with either one missing any `from_self` before
      the filter suppresses it. */
  lemma FromSelfBetweenNoHit(attr: string, s: seq<string>)
    requires FromSelf in s && Index(s, FromSelf) < Index(s, attr)
    requires exists m :: m in LimitMethods && Index(s, m) < Index(s, FromSelf)
    ensures !Fires(attr, s)
  {
    MinIndexBelow(s, LimitMethods, Index(s, FromSelf));
  }
}

=== FILE: lint.dfy ===
/** What a linter sees of a visited attribute node and what it reports.
    The attribute name is the last step of the chain (`q.limit(10).filter_by`
    has attribute `filter_by`); `lineno` and `colOffset` are the node's source
    position as the parser gives it. */
module Lint {

  datatype Attribute = Attribute(attr: string, lineno: int, colOffset: int)

  /** One reported problem: the flake8 result record. */
  datatype Flake8Result = Flake8Result(lineno: int, colOffset: int, message: string)

  /** `after` is `before` with one result for `node` appended, carrying `message`. */
  predicate AppendsOne(before: seq<Flake8Result>, after: seq<Flake8Result>,
                       node: Attribute, message: string)
  {
    after == before + [Flake8Result(node.lineno, node.colOffset, message)]
  }
}

=== FILE: order.dfy ===
/** The later revision of the DUO138 rule (bad_sqlalchemy_order.py): a filter
    after the latest of `limit`/`offset` (at least one must occur), and an
    `update`/`delete` after every query-shaping call in the chain (at least one
    must occur), are reported. A chain is the list of step names of the
    visited attribute node, e.g. ["User", "query", "limit", "filter_by"]; every
    lookup in it is by name and finds the FIRST occurrence of that name. */
module OrderRevision {
  import opened PyList
  import opened Lint

  const Code: string := "DUO138"
  const ErrorTmpl: string :=
    Code + " applying SQLAlchemy methods out of order will cause a runtime exception."

  // The source's name sets, listed without duplicates.
  const FilterMethods: seq<string> := ["filter", "filter_by"]
  const LimitMethods: seq<string> := ["limit", "offset"]
  const FromSelf: string := "from_self"
  const PoisonMethods: seq<string> :=
    ["limit", "offset", "order_by", "group_by", "distinct",
     "join", "outerjoin", "select_from", "from_self"]
  const UpdateDelete: seq<string> := ["update", "delete"]

  /** `_index`: position of the first occurrence of `item`, -1 when absent
      (the ValueError of `list.index` caught). */
  function Index(s: seq<string>, item: string): (r: int)
    ensures -1 <= r < |s|
    ensures r == -1 <==> item !in s
    ensures r >= 0 ==> IsFirstIndex(s, item, r)
  {
    match ListIndex(s, item)
    case Some(k) => k
    case None => -1
  }

  /** `_index` finds the first occurrence of a name in the chain. */
  lemma IndexAt(s: seq<string>, item: string, k: int)
    requires IsFirstIndex(s, item, k)
    ensures Index(s, item) == k
  {
    ListIndexFirst(s, item, k);
  }

  /** The list comprehension `[_index(s, m) for m in names]`. */
  function IndicesOf(s: seq<string>, names: seq<string>): seq<int> {
    seq(|names|, i requires 0 <= i < |names| => Index(s, names[i]))
  }

  /** The largest first index among `names` lies below `b` exactly when every
      name's first index does (absent names counting as -1). */
  lemma MaxIndexBelow(s: seq<string>, names: seq<string>, b: int)
    requires |names| > 0
    ensures Max(IndicesOf(s, names)) < b <==> forall m :: m in names ==> Index(s, m) < b
  {
    var xs := IndicesOf(s, names);
    if Max(xs) < b {
      forall m | m in names ensures Index(s, m) < b {
        var i :| 0 <= i < |names| && names[i] == m;
        assert xs[i] == Index(s, m);
      }
    } else {
      var i :| 0 <= i < |xs| && xs[i] == Max(xs);
      assert names[i] in names && Index(s, names[i]) >= b;
    }
  }

  /** The largest first index among `names` is a real position exactly when
      one of the names occurs in the chain. */
  lemma MaxIndexPresent(s: seq<string>, names: seq<string>)
    requires |names| > 0
    ensures Max(IndicesOf(s, names)) >= 0 <==> exists m :: m in names && m in s
  {
    var xs := IndicesOf(s, names);
    if Max(xs) >= 0 {
      var i :| 0 <= i < |xs| && xs[i] == Max(xs);
      assert names[i] in names && names[i] in s;
    } else {
      forall m | m in names ensures m !in s {
        var i :| 0 <= i < |names| && names[i] == m;
        assert xs[i] == Index(s, m);
      }
    }
  }

  /** Reference reading of the filter rule, without `max`: the node is a
      filter; some limiting call occurs; every limiting call that occurs first
      appears before the filter; and `from_self` does not occur after all of them
      and before the filter. */
  predicate FilterHitSpec(attr: string, s: seq<string>) {
    && attr in FilterMethods
    && (exists m :: m in LimitMethods && m in s)
    && (forall m :: m in LimitMethods && m in s ==> Index(s, m) < Index(s, attr))
    && !(&& FromSelf in s
         && Index(s, FromSelf) < Index(s, attr)
         && forall m :: m in LimitMethods && m in s ==> Index(s, m) < Index(s, FromSelf))
  }

  /** `_filter_after_limit`, reading only the node's attribute name and its
      chain: a filter whose first index follows the larger of the first
      indices of `limit`/`offset`, with no `from_self` strictly between. It
      holds exactly when the reference reading does. */
  predicate FilterAfterLimit(attr: string, s: seq<string>): (r: bool)
    ensures r <==> FilterHitSpec(attr, s)
  {
    if attr in FilterMethods then
      var filterIndex := Index(s, attr);
      var limitIndex := Max(IndicesOf(s, LimitMethods));
      if limitIndex >= 0 && limitIndex < filterIndex then
        var fromSelfIndex := Index(s, FromSelf);
        !(limitIndex < fromSelfIndex && fromSelfIndex < filterIndex)
      else false
    else false
  }

  /** Reference reading of the update/delete rule: the node is an update or a
      delete, some poison call occurs, and every poison call that occurs first
      appears before it. */
  predicate UpdateDeleteHitSpec(attr: string, s: seq<string>) {
    && attr in UpdateDelete
    && (exists m :: m in PoisonMethods && m in s)
    && forall m :: m in PoisonMethods && m in s ==> Index(s, m) < Index(s, attr)
  }

  /** `_bad_update_or_delete`: an update/delete whose first index follows the
      largest first index among the poison names (`from_self` included). It
      holds exactly when the reference reading does. */
  predicate BadUpdateOrDelete(attr: string, s: seq<string>): (r: bool)
    ensures r <==> UpdateDeleteHitSpec(attr, s)
  {
    MaxIndexPresent(s, PoisonMethods);
    MaxIndexBelow(s, PoisonMethods, Index(s, attr));
    if attr in UpdateDelete then
      var greatestBadLeftIndex := Max(IndicesOf(s, PoisonMethods));
      if greatestBadLeftIndex < 0 then false
      else
        var updateDeleteIndex := Index(s, attr);
        greatestBadLeftIndex < updateDeleteIndex
    else false
  }

  /** `visit_Attribute`: at most one result is appended, at the node's
      position, and only when one of the two rules holds. */
  function Visit(results: seq<Flake8Result>, node: Attribute, path: seq<string>)
    : (r: seq<Flake8Result>)
    ensures r == results || AppendsOne(results, r, node, ErrorTmpl)
    ensures r != results <==>
      FilterHitSpec(node.attr, path) || UpdateDeleteHitSpec(node.attr, path)
    ensures node.attr !in FilterMethods && node.attr !in UpdateDelete ==> r == results
  {
    var hit := FilterAfterLimit(node.attr, path) || BadUpdateOrDelete(node.attr, path);
    if hit then results + [Flake8Result(node.lineno, node.colOffset, ErrorTmpl)]
    else results
  }

  /** The filter rule never fires on a chain without `limit` and `offset`. */
  lemma NoLimitNoFilterHit(attr: string, s: seq<string>)
    requires "limit" !in s && "offset" !in s
    ensures !FilterAfterLimit(attr, s)
  {
    MaxIndexPresent(s, LimitMethods);
  }

  /** A filter that comes before some occurring `limit`/`offset` is not
      reported, whatever follows it (a later `from_self` included). */
  lemma FilterBeforeLimitNoHit(attr: string, s: seq<string>, m: string)
    requires m in LimitMethods && m in s && Index(s, attr) < Index(s, m)
    ensures !FilterAfterLimit(attr, s)
  {
    MaxIndexBelow(s, LimitMethods, Index(s, attr));
  }

  /** A `from_self` after every occurring `limit`/`offset` and before the
      filter suppresses the report. */
  lemma FromSelfBetweenNoHit(attr: string, s: seq<string>)
    requires FromSelf in s && Index(s, FromSelf) < Index(s, attr)
    requires forall m :: m in LimitMethods && m in s ==> Index(s, m) < Index(s, FromSelf)
    ensures !FilterAfterLimit(attr, s)
  {
  }

  /** Any poison call before an update/delete, with no poison call after its
      first occurrence, is reported; `from_self` does not rescue it. */
  lemma PoisonBeforeUpdateHit(attr: string, s: seq<string>, m: string)
    requires attr in UpdateDelete && m in PoisonMethods && m in s
    requires forall p :: p in PoisonMethods && p in s ==> Index(s, p) < Index(s, attr)
    ensures BadUpdateOrDelete(attr, s)
  {
  }

  /** Without any poison call an update/delete is never reported. */
  lemma NoPoisonNoUpdateHit(attr: string, s: seq<string>)
    requires forall p :: p in PoisonMethods ==> p !in s
    ensures !BadUpdateOrDelete(attr, s)
  {
    MaxIndexPresent(s, PoisonMethods);
  }

  /** The two trigger sets are disjoint, so at most one rule holds for a node. */
  lemma RulesExclusive(attr: string, s: seq<string>)
    ensures !(FilterAfterLimit(attr, s) && BadUpdateOrDelete(attr, s))
  {
  }
}

=== FILE: pylist.dfy ===
/** The three Python built-ins the rule leans on: `list.index`, `max` and `min`.
    `list.index` raises ValueError when the item is absent; that failure is the
    `None` of an `Option` here. `max` and `min` raise on an empty list, which the
    rule never passes them (its name collections are non-empty constants), so
    they ask for a non-empty sequence. */
module PyList {

  datatype Option<+T> = None | Some(value: T)

  /** `k` is the position of the first occurrence of `item` in `s`. */
  predicate IsFirstIndex<T(==)>(s: seq<T>, item: T, k: int) {
    0 <= k < |s| && s[k] == item && item !in s[..k]
  }

  /** Python's `s.index(item)`: the first position holding `item`, or the
      ValueError (`None`) when there is none. */
  function ListIndex<T(==)>(s: seq<T>, item: T): (r: Option<nat>)
    ensures r.None? <==> item !in s
    ensures r.Some? ==> IsFirstIndex(s, item, r.value)
  {
    if |s| == 0 then None
    else if s[0] == item then Some(0)
    else
      match ListIndex(s[1..], item)
      case None => None
      case Some(k) =>
        assert s[..k + 1] == [s[0]] + s[1..][..k];
        Some(k + 1)
  }

  /** Conversely, the first occurrence of `item` is the one `s.index(item)`
      returns: there is only one first position. */
  lemma {:induction false} ListIndexFirst<T>(s: seq<T>, item: T, k: int)
    requires IsFirstIndex(s, item, k)
    ensures ListIndex(s, item) == Some(k)
  {
    if k > 0 {
      assert s[0] == s[..k][0];
      assert s[1..][..k - 1] == s[..k][1..];
      ListIndexFirst(s[1..], item, k - 1);
    }
  }

  /** Python's `max(xs)`: a member of `xs` that no member exceeds. */
  function Max(xs: seq<int>): (r: int)
    requires |xs| > 0
    ensures r in xs
    ensures forall i :: 0 <= i < |xs| ==> xs[i] <= r
  {
    if |xs| == 1 then xs[0]
    else
      var rest := Max(xs[1..]);
      if xs[0] >= rest then xs[0] else rest
  }

  /** Python's `min(xs)`: a member of `xs` that no member undercuts. */
  function Min(xs: seq<int>): (r: int)
    requires |xs| > 0
    ensures r in xs
    ensures forall i :: 0 <= i < |xs| ==> r <= xs[i]
  {
    if |xs| == 1 then xs[0]
    else
      var rest := Min(xs[1..]);
      if xs[0] <= rest then xs[0] else rest
  }
}

=== FILE: scenarios.dfy ===
/** The outcome of both revisions, one visit at a time, on the chains of the
    rule's test file, and the point where the two revisions part ways.

    Each chain is written in full (`User.query.limit(10).filter_by(id=1)` is
    ["User", "query", "limit", "filter_by"]); positions are those of the
    statement in the test's code string (line 4 or 5, column 12 after
    `users = `, column 4 for a bare statement). A plain `ast.NodeVisitor`
    would visit only the chain's outermost attribute, since neither revision
    calls `generic_visit`; the base linter class is not part of this model, so
    each lemma states the outermost visit and, where the revisions differ on
    it, the visit of the inner filter node as well.

    Each test-case lemma takes its chain as a parameter fixed by its
    `requires`. Written as a literal inside the `ensures`, the chain would let
    the verifier evaluate the rule predicates on it directly, which costs far
    more than the proof through the general lemmas. */
module Scenarios {
  import opened PyList
  import opened Lint
  import O = OrderRevision
  import F = FilterRevision

  /** On a chain with no `limit`, `offset` or `from_self`, the earlier revision
      reports every filter node that occurs in the chain and the later one
      reports none. */
  lemma RevisionsDisagreeWithoutLimit(attr: string, s: seq<string>)
    requires attr in F.FilterMethods && attr in s
    requires "limit" !in s && "offset" !in s && "from_self" !in s
    ensures F.Fires(attr, s)
    ensures !O.FilterAfterLimit(attr, s)
  {
    F.MissingLimitFires(attr, s);
    O.NoLimitNoFilterHit(attr, s);
  }

  /** `User.query.filter_by(id=id).first()`, a chain the test file expects no
      result for: the earlier revision reports its `filter_by` node, the later
      revision does not, and neither reports the outermost `first` node. */
  lemma UnlimitedFilterReported(s: seq<string>)
    requires s == ["User", "query", "filter_by", "first"]
    ensures F.Visit([], Attribute("filter_by", 5, 12), s) == [Flake8Result(5, 12, F.ErrorTmpl)]
    ensures O.Visit([], Attribute("filter_by", 5, 12), s) == []
    ensures F.Visit([], Attribute("first", 5, 12), s) == []
    ensures O.Visit([], Attribute("first", 5, 12), s) == []
  {
    assert "limit" !in s && "offset" !in s && "from_self" !in s;
    RevisionsDisagreeWithoutLimit("filter_by", s);
  }

  /** The same chain cut at the `filter_by` node is reported too. */
  lemma UnlimitedFilterPrefixReported(s: seq<string>)
    requires s == ["User", "query", "filter_by"]
    ensures F.Visit([], Attribute("filter_by", 5, 12), s) == [Flake8Result(5, 12, F.ErrorTmpl)]
  {
    assert "limit" !in s && "offset" !in s && "from_self" !in s;
    RevisionsDisagreeWithoutLimit("filter_by", s);
  }

  /** `User.query.limit(10).filter_by(id=1)`: one result at the filter, in
      both revisions. */
  lemma FilterAfterLimitReported(s: seq<string>)
    requires s == ["User", "query", "limit", "filter_by"]
    ensures O.Visit([], Attribute("filter_by", 4, 12), s) == [Flake8Result(4, 12, O.ErrorTmpl)]
    ensures F.Visit([], Attribute("filter_by", 4, 12), s) == [Flake8Result(4, 12, F.ErrorTmpl)]
  {
    assert IsFirstIndex(s, "limit", 2) && IsFirstIndex(s, "filter_by", 3);
    assert "offset" !in s && "from_self" !in s;
    assert "limit" in O.LimitMethods && "limit" in s;
    F.MissingLimitFires("filter_by", s);
  }

  /** `User.query.offset(10).filter_by(id=1)`: one result at the filter, in
      both revisions. */
  lemma FilterAfterOffsetReported(s: seq<string>)
    requires s == ["User", "query", "offset", "filter_by"]
    ensures O.Visit([], Attribute("filter_by", 4, 12), s) == [Flake8Result(4, 12, O.ErrorTmpl)]
    ensures F.Visit([], Attribute("filter_by", 4, 12), s) == [Flake8Result(4, 12, F.ErrorTmpl)]
  {
    assert IsFirstIndex(s, "offset", 2) && IsFirstIndex(s, "filter_by", 3);
    assert "limit" !in s && "from_self" !in s;
    assert "offset" in O.LimitMethods && "offset" in s;
    F.MissingLimitFires("filter_by", s);
  }

  /** `User.query.filter_by(name="Joe").limit(10)`: the later revision reports
      neither node; the earlier one reports nothing at the outermost `limit`
      node but does report the inner `filter_by` node (only one limiting
      call, so its limit index is -1). */
  lemma FilterThenLimitScenario(s: seq<string>)
    requires s == ["User", "query", "filter_by", "limit"]
    ensures O.Visit([], Attribute("filter_by", 5, 12), s) == []
    ensures O.Visit([], Attribute("limit", 5, 12), s) == []
    ensures F.Visit([], Attribute("limit", 5, 12), s) == []
    ensures F.Visit([], Attribute("filter_by", 5, 12), s) == [Flake8Result(5, 12, F.ErrorTmpl)]
  {
    assert IsFirstIndex(s, "filter_by", 2) && IsFirstIndex(s, "limit", 3);
    assert "offset" !in s && "from_self" !in s;
    O.FilterBeforeLimitNoHit("filter_by", s, "limit");
    F.MissingLimitFires("filter_by", s);
  }

  /** `User.query.filter_by(name="Joe").offset(5)`: as with `limit`. */
  lemma FilterThenOffsetScenario(s: seq<string>)
    requires s == ["User", "query", "filter_by", "offset"]
    ensures O.Visit([], Attribute("filter_by", 5, 12), s) == []
    ensures O.Visit([], Attribute("offset", 5, 12), s) == []
    ensures F.Visit([], Attribute("offset", 5, 12), s) == []
    ensures F.Visit([], Attribute("filter_by", 5, 12), s) == [Flake8Result(5, 12, F.ErrorTmpl)]
  {
    assert IsFirstIndex(s, "filter_by", 2) && IsFirstIndex(s, "offset", 3);
    assert "limit" !in s && "from_self" !in s;
    O.FilterBeforeLimitNoHit("filter_by", s, "offset");
    F.MissingLimitFires("filter_by", s);
  }

  /** `User.query.limit(10).from_self().filter_by(id=1)`: `from_self` in
      between suppresses the result in both revisions. */
  lemma FromSelfAfterLimitNotReported(s: seq<string>)
    requires s == ["User", "query", "limit", "from_self", "filter_by"]
    ensures O.Visit([], Attribute("filter_by", 5, 12), s) == []
    ensures F.Visit([], Attribute("filter_by", 5, 12), s) == []
  {
    assert IsFirstIndex(s, "from_self", 3) && IsFirstIndex(s, "filter_by", 4);
    assert O.Visit([], Attribute("filter_by", 5, 12), s) == [] by {
      assert IsFirstIndex(s, "limit", 2) && "offset" !in s;
      O.IndexAt(s, "limit", 2);
      O.IndexAt(s, "from_self", 3);
      O.FromSelfBetweenNoHit("filter_by", s);
    }
    assert F.Visit([], Attribute("filter_by", 5, 12), s) == [] by {
      assert "offset" !in s;
      F.MissingLimitFires("filter_by", s);
    }
  }

  /** `User.query.offset(10).from_self().filter_by(id=1)`: as with `limit`. */
  lemma FromSelfAfterOffsetNotReported(s: seq<string>)
    requires s == ["User", "query", "offset", "from_self", "filter_by"]
    ensures O.Visit([], Attribute("filter_by", 5, 12), s) == []
    ensures F.Visit([], Attribute("filter_by", 5, 12), s) == []
  {
    assert IsFirstIndex(s, "from_self", 3) && IsFirstIndex(s, "filter_by", 4);
    assert O.Visit([], Attribute("filter_by", 5, 12), s) == [] by {
      assert IsFirstIndex(s, "offset", 2) && "limit" !in s;
      O.IndexAt(s, "offset", 2);
      O.IndexAt(s, "from_self", 3);
      O.FromSelfBetweenNoHit("filter_by", s);
    }
    assert F.Visit([], Attribute("filter_by", 5, 12), s) == [] by {
      assert "limit" !in s;
      F.MissingLimitFires("filter_by", s);
    }
  }

  /** `User.query.filter_by(id=1).limit(10).from_self()`: a `from_self` after
      the filter changes nothing. The later revision reports neither node, and
      the earlier one reports nothing at the outermost `from_self` node but
      does report the inner `filter_by` node: there is no `offset`, so its
      limit index is -1, and `from_self` comes after the filter. */
  lemma FromSelfAtEndScenario(s: seq<string>)
    requires s == ["User", "query", "filter_by", "limit", "from_self"]
    ensures O.Visit([], Attribute("filter_by", 5, 12), s) == []
    ensures O.Visit([], Attribute("from_self", 5, 12), s) == []
    ensures F.Visit([], Attribute("from_self", 5, 12), s) == []
    ensures F.Visit([], Attribute("filter_by", 5, 12), s) == [Flake8Result(5, 12, F.ErrorTmpl)]
  {
    assert IsFirstIndex(s, "filter_by", 2) && IsFirstIndex(s, "limit", 3);
    assert IsFirstIndex(s, "from_self", 4) && "offset" !in s;
    O.FilterBeforeLimitNoHit("filter_by", s, "limit");
    F.MissingLimitFires("filter_by", s);
  }

  /** `User.query.<poison>.update()` and `.delete()` for each of the nine
      poison calls: one result at the terminal call. */
  lemma PoisonThenUpdateReported()
    ensures forall p, e :: p in O.PoisonMethods && e in O.UpdateDelete ==>
      O.Visit([], Attribute(e, 5, 4), ["User", "query", p, e]) == [Flake8Result(5, 4, O.ErrorTmpl)]
  {
    forall p, e | p in O.PoisonMethods && e in O.UpdateDelete
      ensures O.Visit([], Attribute(e, 5, 4), ["User", "query", p, e]) == [Flake8Result(5, 4, O.ErrorTmpl)]
    {
      var s := ["User", "query", p, e];
      assert IsFirstIndex(s, e, 3) && IsFirstIndex(s, p, 2);
      forall q | q in O.PoisonMethods && q in s ensures O.Index(s, q) < O.Index(s, e) {
        assert q == p;
      }
      O.PoisonBeforeUpdateHit(e, s, p);
    }
  }

  /** `User.query.filter_by(id=1).update()` and `.delete()`: no poison call, no
      result. */
  lemma FilterThenUpdateNotReported()
    ensures O.Visit([], Attribute("update", 5, 4), ["User", "query", "filter_by", "update"]) == []
    ensures O.Visit([], Attribute("delete", 5, 4), ["User", "query", "filter_by", "delete"]) == []
  {
    var s1 := ["User", "query", "filter_by", "update"];
    var s2 := ["User", "query", "filter_by", "delete"];
    assert forall p :: p in O.PoisonMethods ==> p !in s1 && p !in s2;
    O.NoPoisonNoUpdateHit("update", s1);
    O.NoPoisonNoUpdateHit("delete", s2);
  }
}
